=== FILE: README.md ===
# SnapAPI JavaScript client — a Dafny model

This project models the `SnapAPI` client of the SnapAPI JavaScript SDK, a thin
client for a remote screenshot/PDF/video rendering service. The client checks
each call's options, builds one HTTP request (base URL plus path, three
default headers, a JSON body), and reads the response in one of two ways.
A non-OK status becomes a `SnapAPIError` carrying a code, a message, the
status and optional details. An OK response is returned either as raw bytes
or as decoded JSON.

Everything is pure. The network is replaced by a `Response` value: the status,
the raw bytes, and what `response.json()` yields (`None` when the body is not
JSON). Thrown errors become `Result` failures. Options objects are maps from
property names to JSON-like `Value`s, and a missing key stands for
`undefined`. JavaScript truthiness is explicit: `Json.Truthy` treats `""`,
`0`, `false`, `null` and `undefined` as missing.

Modules:

- `Wrappers`: `Option` and `Result`.
- `Decimal`: integer-to-decimal text, used for the `HTTP <status>` message, with a parser that inverts it.
- `Json`: values, property reads, optional chaining, truthiness and `String(v)`.
- `Config`: the constructor.
- `Transport`: the private `request` and `parseError`.
- `Validation`: the per-endpoint checks.
- `Endpoints`: the public methods.
- `SnapApi`: every public method as one `Operation`, with properties that hold across all of them.

Points where the code's behaviour is easy to misread:

- A timeout is not turned into a `SnapAPIError`. The abort makes `fetch` reject, and that rejection reaches the caller unchanged (src/index.ts:948-971).
- `'base64'` is not a response mode of its own. `'binary'` or a falsy `responseType` returns the bytes. Every other value, `'base64'` and `'json'` included, returns `response.json()` (src/index.ts:621-625, 868-872).
- An error body's `code` and `message` are tested for truthiness. An empty string therefore falls back to `UNKNOWN_ERROR` or `HTTP <status>`, like a missing one (src/index.ts:983-984).
- `parseError` does not always produce an error for the status. A body that decodes to `null` makes it throw a TypeError. So does an `error.message` that `String` cannot convert (see Findings).

## Model

| member | source | states |
|---|---|---|
| Config.NewClient | src/index.ts:578-585 | construction fails, with "API key is required", exactly when the key is falsy; a falsy base URL or timeout (including "" and 0) takes the default `https://api.snapapi.pics` / 60000, a truthy one is kept; every client built is `Configured` |
| Config.ConfiguredIsReachable | src/index.ts:578-585 | a client is `Configured` iff rebuilding it from its own settings yields the same client |
| Config.FalsyDefaultsLikeMissing | src/index.ts:583-584 | an empty base URL and a zero timeout construct the same client as omitted ones |
| Decimal.DigitsRoundTrip | src/index.ts:983 | the digits of a natural number read back as that number |
| Decimal.FromInt | src/index.ts:983 | `${response.status}`: the canonical decimal text of the status, with `-` exactly for a negative number, no leading zero except in `0` itself and no `-0`, that reads back as the status, so distinct statuses give distinct messages |
| Json.Truthy | src/index.ts:579-584 | the truthiness behind `!x` and the constructor's defaulting: falsy exactly for `undefined`, `null`, `false`, `0` and `""` |
| Json.TruthyText | src/index.ts:579-583 | `!config.apiKey` and the default for `config.baseUrl`: a string setting is falsy exactly when missing or `""` |
| Json.TruthyNumber | src/index.ts:584 | the default for `config.timeout`: a number setting is falsy exactly when missing or `0` |
| Json.Field | src/index.ts:612 | `options.key` on an options object (also lines 621, 685, 785-794, 826, 859, 868 and 892): present exactly when the object has that key, with that key's value; an absent key is `undefined` |
| Json.Prop | src/index.ts:983-986 | `v.key` on a non-null value: present exactly when `v` is an object with that own key, with that key's value |
| Json.OptionalProp | src/index.ts:983-986 | `v?.key`: absent when `v` is absent or `null`, otherwise the property read |
| Json.ToText | src/index.ts:983 | the `String` conversion `new Error(m)` applies: it throws exactly when the value is not `Printable` (an object with its own `toString` key, or an array holding one at any depth); strings unchanged, integers as decimal text that reads back to the number, other objects as `[object Object]` |
| Json.JoinItems | src/index.ts:983 | `String` of an array through `join(",")`: throws exactly when some item's `String` throws; the empty array and a lone `null` give `""` |
| Transport.TimerDelay | src/index.ts:949 | the delay after which the abort timer fires for the requested one: the requested delay exactly when it is in 1 to 2147483647 ms, otherwise 1 ms |
| Transport.IsOk | src/index.ts:963 | `response.ok`: exactly the 2xx statuses |
| Transport.DefaultHeaders | src/index.ts:954-957 | exactly three headers: `X-Api-Key` = the key, `Content-Type` = `application/json`, `User-Agent` = `snapapi-js/1.2.0` |
| Transport.Overlay | src/index.ts:954-959 | the spread of caller headers over defaults: keys are the union, caller values win, other defaults unchanged |
| Transport.BuildRequest | src/index.ts:945-961 | the target is the base URL followed by the path; method and body come from `init` (GET with no body without it); the headers are the defaults plus the caller's, every caller header keeps its value and every default the caller does not name keeps the default; the delay passed to `setTimeout` is the client timeout |
| Transport.HeaderOverride | src/index.ts:954-959 | every default header is present, with the caller's value when the caller supplies that name and the default otherwise |
| Transport.AbortDelayOfClient | src/index.ts:949 | the abort timer of every request of a constructed client fires after the configured timeout when it is in 1 to 2147483647 ms, after the 60000 ms default when the timeout is missing or `0`, and after 1 ms for any other timeout |
| Transport.StatusMessage | src/index.ts:983 | the fallback message is exactly `HTTP ` followed by the canonical decimal text of the status, which reads back as the status |
| Transport.ErrorBody | src/index.ts:975-981 | an undecodable body is read as `{}`, otherwise the decoded value is used |
| Transport.ErrorFrom | src/index.ts:983-986 | from `body.error`: status copied verbatim; code is `error.code` if truthy else `UNKNOWN_ERROR`; message is `String(error.message)` if that is truthy and converts, else `HTTP <status>`; details is `error.details` or absent; a missing or `null` `error` gives exactly the fallback error |
| Transport.NormalizeError | src/index.ts:974-989 | status copied verbatim; code is `error.code` if truthy else `UNKNOWN_ERROR`; message is `String(error.message)` if that is truthy and converts, else `HTTP <status>`; details is `error.details` or absent; an undecodable or `null` body gives exactly the fallback error |
| Transport.ErrorMember | src/index.ts:983-986 | the `error` member read as `body?.error`: absent for an undecodable or `null` body, otherwise `body.error`; the source writes `body.error`, with no guard on `body` |
| Transport.ParseErrorAsWritten | src/index.ts:974-989 | the code as written throws a TypeError for a `null` body, and another exactly when the body is not `null` and its truthy `error.message` cannot be converted by `String`; it returns an error exactly when neither happens |
| Transport.AsWrittenAgreesUnlessEscaping | src/index.ts:974-989 | the written code and the normalisation give the same error for every body the written code does not throw on |
| Transport.NullBodyLosesStatus | src/index.ts:975-986 | for status 500 and body `null` the written code throws a TypeError, while the normalisation keeps status 500 and `UNKNOWN_ERROR` |
| Transport.ObjectMessageLosesStatus | src/index.ts:983 | for status 500 and `error.message` an object with its own `toString` key, the written code throws a TypeError, while the normalisation gives the `HTTP 500` fallback error |
| Transport.DispatchAsWritten | src/index.ts:963-968 | `request` as written: the response is returned unchanged exactly when its status is 200-299; otherwise the written `parseError` decides, and an error comes back exactly when that does not throw |
| Transport.DispatchDiffersOnlyOnEscapes | src/index.ts:963-968 | the written `request` and `Dispatch` agree on every response except a non-OK one whose body makes the written `parseError` throw, where `Dispatch` keeps the status |
| Transport.Dispatch | src/index.ts:963-968 | the response is returned unchanged exactly when its status is 200-299; otherwise the result is the normalised error with the response's status |
| Transport.WellFormedErrorBody | src/index.ts:983-986 | a non-OK response with `{error:{code,message}}` (both non-empty) fails with that code and message, the real status and no details |
| Transport.RateLimitedExample | src/index.ts:983-986 | status 429 with code `RATE_LIMITED` yields an error with that code and status 429 |
| Transport.UnusableBodyFallback | src/index.ts:983-986 | a body with no `error` member yields `UNKNOWN_ERROR`, the `HTTP <status>` message and no details |
| Validation.FirstFalsy | src/index.ts:785-796 | the index of the first falsy field: every earlier field is truthy and this one is not, or all are truthy |
| Validation.ScreenshotProblem | src/index.ts:612-614 | rejected, with its message, exactly when none of url, html, markdown is truthy |
| Validation.PdfProblem | src/index.ts:826-828 | rejected exactly when neither url nor html is truthy |
| Validation.UrlProblem | src/index.ts:685-687 | rejected with "URL is required" exactly when url is falsy |
| Validation.AnalyzeProblem | src/index.ts:785-796 | accepted exactly when url, prompt, provider and apiKey are all truthy; otherwise the message of the first falsy one in that order |
| Validation.LengthIsZero | src/index.ts:892 | `urls.length === 0`: for an array or string exactly when empty; never for booleans or numbers (a `null` value of `urls` is stopped by the truthiness check before the length is read) |
| Validation.BatchProblem | src/index.ts:892-894 | rejected when `urls` is absent; for an array, accepted exactly when it is non-empty |
| Endpoints.DecodingFor | src/index.ts:621 | bytes exactly when `responseType` is `'binary'` or falsy; `'base64'` and `'json'` read JSON |
| Endpoints.Decode | src/index.ts:621-625 | bytes are returned unchanged; JSON succeeds exactly when the body decodes, with the decoded value |
| Endpoints.PostJson | src/index.ts:616-619 | the `init` each POST endpoint passes to `request` (also lines 689-692, 798-801, 830-833, 863-866 and 896-899): a POST whose body is the options object and which adds no header, so the request carries exactly the three default headers |
| Endpoints.Perform | src/index.ts:945-972 | nothing is sent exactly when a check fails; otherwise one request is built, a non-OK status gives the normalised error and an OK one is decoded |
| Endpoints.Screenshot | src/index.ts:611-626 | sent exactly when url, html or markdown is truthy, as a POST of the options to `/v1/screenshot`; an OK answer is read as `responseType` selects: bytes unchanged for `'binary'` or falsy, otherwise JSON, which fails exactly when the body is not JSON |
| Endpoints.ScreenshotFromHtml | src/index.ts:635-637 | sends the options with `html` set, and always sends when the html is non-empty |
| Endpoints.ScreenshotDevice | src/index.ts:647-649 | sends the options with `url` and `device` set, and always sends when the url is non-empty |
| Endpoints.ScreenshotFromMarkdown | src/index.ts:664-666 | sends the options with `markdown` set, and always sends when the markdown is non-empty |
| Endpoints.PdfBody | src/index.ts:832 | the body has `format` = `'pdf'` and agrees with the options on every other key |
| Endpoints.Pdf | src/index.ts:825-836 | sent exactly when url or html is truthy, with the forced-format body to `/v1/pdf`; an OK answer is always the bytes |
| Endpoints.Video | src/index.ts:858-873 | sent exactly when url is truthy, to `/v1/video`; an OK answer is read as `responseType` selects: bytes unchanged for `'binary'` or falsy, otherwise JSON, which fails exactly when the body is not JSON |
| Endpoints.Extract | src/index.ts:684-695 | sent exactly when url is truthy, to `/v1/extract`; an OK answer is read as JSON |
| Endpoints.ExtractAs | src/index.ts:703-765 | each `extractX(url)` is `extract({url, type})` with exactly those two keys, and is rejected, with nothing sent, exactly when the url is empty |
| Endpoints.Analyze | src/index.ts:784-804 | sent exactly when all four required fields are truthy; otherwise the message for the first falsy one |
| Endpoints.Batch | src/index.ts:891-902 | absent `urls` is rejected; an array is sent exactly when non-empty, to `/v1/screenshot/batch` |
| Endpoints.BatchStatus | src/index.ts:910-913 | always a bodiless GET of `/v1/screenshot/batch/` followed by the job id |
| Endpoints.Fetch | src/index.ts:920-943 | devices, capabilities and usage are bodiless GETs of their paths, read as JSON |
| SnapApi.EveryRequestAuthenticated | src/index.ts:945-961 | every request any method sends targets the base URL, carries exactly the default headers (the key under `X-Api-Key`) and passes the client's timeout to `setTimeout` |
| SnapApi.OutcomeFollowsStatus | src/index.ts:963-968 | every call ends in exactly one way: rejected with nothing sent, a service error with the real status for a non-OK answer, or success or a decode failure for an OK one |
| SnapApi.ResponseModeAcrossOperations | src/index.ts:621-625 | for an OK answer to any method, the bytes come back unchanged exactly for `pdf` and for screenshots and videos whose `responseType` is `'binary'` or falsy; every other call returns the decoded JSON, or fails when the body is not JSON |
| SnapApi.MarkdownOnlyPdfRejected | src/index.ts:826-828 | markdown alone is rejected by `pdf` but sent by `screenshot` |
| SnapApi.PngScreenshotExample | src/index.ts:621-622 | PNG bytes returned with status 200 to a screenshot without `responseType` come back unchanged |
| SnapApi.AnalyzeReportsFirstMissing | src/index.ts:788-790 | with url and provider present but no prompt, analyze reports "Prompt is required" |

## Left out

- `fetch`, `response.json()`, `response.arrayBuffer()` and `Buffer`: network I/O and runtime calls. The response is a value, and JSON decoding is the `parsed` field.
- The abort timer (`AbortController`, `setTimeout`, `clearTimeout`): it is timing and cancellation. The request records the delay passed to `setTimeout` (`abortAfter`), which is the configured timeout. `Transport.TimerDelay` states when Node fires for it, and `Transport.AbortDelayOfClient` carries that through the constructor and `BuildRequest`: a delay outside 1 to 2147483647 ms becomes 1 ms, so every request is aborted almost at once. The firing itself and the rejection of the aborted fetch are not modelled.
- JavaScript numbers are integers here. `NaN`, fractions, and the exponent notation `String` uses from 10^21 upwards are not modelled.
- The JSON text of request bodies is not modelled. The body is the object that `JSON.stringify` would serialise, so property order is not modelled either.
- `fetch` matches header names without regard to case. The overlay works on the object keys as the code writes them, so a caller header that differs from a default only in case is not merged here.
- The option and result interface catalog: only the fields the client reads are modelled. Documented ranges such as widths are not checked by the client, so they are not preconditions.
- Property reads on arrays and primitives: `Json.Prop` gives them none of the names the client reads. That holds for every name the client reads. Prototype properties of objects are likewise ignored.
- The constructor's settings are typed. A non-string key or a non-object options argument, which TypeScript rules out, is not modelled.
- `createClient` and the default export are aliases of the constructor.
- The `name` and stack of the thrown `Error` objects are not modelled.
- Transport.Dispatch: uses the corrected `parseError` (`Transport.NormalizeError`). A non-OK response whose body is `null`, or whose `error.message` `String` cannot convert, therefore gives the fallback error with the real status, where the source throws a TypeError. `Transport.DispatchAsWritten` models the source's behaviour.
- Endpoints.Perform: inherits the corrected `parseError` from `Transport.Dispatch`. For a `null` error body, or an `error.message` `String` cannot convert, it gives a service error where the source's method rejects with a TypeError.
- SnapApi.OutcomeFollowsStatus: "a non-OK answer is a service error with the real status" holds for the corrected `parseError`. For a `null` error body, or an `error.message` `String` cannot convert, the source throws a TypeError instead, as `Transport.DispatchDiffersOnlyOnEscapes` states.

## Findings

| source | as written | input that shows it | evidently intended | confidence | as-written member | corrected member |
|---|---|---|---|---|---|---|
| src/index.ts:975-986 | `body.error?.message` guards only `body.error`, not `body`; a body that decodes to `null` makes `body.error` throw a TypeError, so the caller gets no `SnapAPIError` and loses the status | a 500 response whose body is the JSON text `null` | the same error as for an undecodable body: code `UNKNOWN_ERROR`, message `HTTP 500`, status 500 | medium, not executed | Transport.ParseErrorAsWritten (with Transport.NullBodyLosesStatus) | Transport.NormalizeError (with Transport.AsWrittenAgreesUnlessEscaping; used by Transport.Dispatch, as opposed to Transport.DispatchAsWritten) |
| src/index.ts:983 | `new Error(...)` converts a truthy message with `String`; a decoded object with its own `toString` key cannot be converted, so this throws a TypeError and the caller gets no `SnapAPIError` | a 500 response whose body is `{"error":{"message":{"toString":"x"}}}` | an error for the status like any unusable message: code `UNKNOWN_ERROR`, message `HTTP 500`, status 500 | low, not executed | Transport.ParseErrorAsWritten (with Transport.ObjectMessageLosesStatus) | Transport.NormalizeError (with Transport.AsWrittenAgreesUnlessEscaping; used by Transport.Dispatch) |

=== FILE: config.dfy ===
/** Construction of a client from its configuration record. */
module Config {
  import opened Wrappers
  import opened Json

  const DefaultBaseUrl := "https://api.snapapi.pics"
  const DefaultTimeout := 60000
  const MissingApiKey := "API key is required"

  /** The configuration record a caller passes to the constructor. */
  datatype Settings = Settings(apiKey: Option<string>, baseUrl: Option<string>, timeout: Option<int>)

  /** A constructed client: the key, the origin every path is appended to and
      the abort delay in milliseconds. */
  datatype Client = Client(apiKey: string, baseUrl: string, timeout: int)

  /** What every constructed client satisfies: all three fields are truthy. */
  predicate Configured(c: Client) {
    c.apiKey != "" && c.baseUrl != "" && c.timeout != 0
  }

  /** The constructor. A falsy key is rejected; a falsy base URL or timeout
      (including `""` and `0`) is replaced by its default. */
  function NewClient(s: Settings): (r: Result<Client, string>)
    ensures r.Failure? <==> !TruthyText(s.apiKey)
    ensures r.Failure? ==> r.error == MissingApiKey
    ensures r.Success? ==> Configured(r.value) && Some(r.value.apiKey) == s.apiKey
    ensures r.Success? && TruthyText(s.baseUrl) ==> r.value.baseUrl == s.baseUrl.value
    ensures r.Success? && !TruthyText(s.baseUrl) ==> r.value.baseUrl == DefaultBaseUrl
    ensures r.Success? && TruthyNumber(s.timeout) ==> r.value.timeout == s.timeout.value
    ensures r.Success? && !TruthyNumber(s.timeout) ==> r.value.timeout == DefaultTimeout
  {
    if !TruthyText(s.apiKey) then Failure(MissingApiKey)
    else
      Success(Client(
        s.apiKey.value,
        if TruthyText(s.baseUrl) then s.baseUrl.value else DefaultBaseUrl,
        if TruthyNumber(s.timeout) then s.timeout.value else DefaultTimeout))
  }

  /** The settings that describe an existing client. */
  function SettingsOf(c: Client): Settings {
    Settings(Some(c.apiKey), Some(c.baseUrl), Some(c.timeout))
  }

  /** Constructing from a client's own settings reproduces it exactly: the
      defaults are fixed points, and `Configured` characterises exactly the
      clients the constructor can produce. */
  lemma ConfiguredIsReachable(c: Client)
    ensures Configured(c) <==> NewClient(SettingsOf(c)) == Success(c)
  {
  }

  /** A zero timeout and an empty base URL behave exactly like omitted ones. */
  lemma FalsyDefaultsLikeMissing(key: string, base: Option<string>, timeout: Option<int>)
    requires base == None || base == Some("")
    requires timeout == None || timeout == Some(0)
    ensures NewClient(Settings(Some(key), base, timeout)) == NewClient(Settings(Some(key), None, None))
  {
  }
}

=== FILE: decimal.dfy ===
/** Decimal text of integers, as produced by JavaScript's template literals
    (`${n}`) for integral numbers, together with a parser that inverts it. */
module Decimal {
  import opened Wrappers

  predicate IsDigit(c: char) {
    '0' <= c <= '9'
  }

  predicate AllDigits(s: string) {
    forall i :: 0 <= i < |s| ==> IsDigit(s[i])
  }

  function DigitChar(d: nat): (c: char)
    requires d < 10
    ensures IsDigit(c)
  {
    ('0' as int + d) as char
  }

  function DigitValue(c: char): (d: nat)
    requires IsDigit(c)
    ensures d < 10
  {
    c as int - '0' as int
  }

  /** The decimal digits of `n`, most significant first, without leading zeros. */
  function Digits(n: nat): (s: string)
    ensures |s| >= 1
    ensures AllDigits(s)
    ensures s[0] == '0' ==> n == 0
    decreases n
  {
    if n < 10 then [DigitChar(n)] else Digits(n / 10) + [DigitChar(n % 10)]
  }

  /** The number a string of digits denotes. */
  function DigitsValue(s: string): nat
    requires AllDigits(s)
    decreases |s|
  {
    if |s| == 0 then 0 else DigitsValue(s[..|s| - 1]) * 10 + DigitValue(s[|s| - 1])
  }

  /** Reads back an optionally signed decimal integer; `None` for anything else. */
  function ToInt(s: string): Option<int> {
    if |s| >= 2 && s[0] == '-' && AllDigits(s[1..]) then
      var magnitude: int := DigitsValue(s[1..]);
      Some(-magnitude)
    else if |s| >= 1 && AllDigits(s) then
      var magnitude: int := DigitsValue(s);
      Some(magnitude)
    else None
  }

  lemma {:induction false} DigitsRoundTrip(n: nat)
    ensures DigitsValue(Digits(n)) == n
    decreases n
  {
    if n >= 10 {
      var prefix := Digits(n / 10);
      var s := prefix + [DigitChar(n % 10)];
      assert s[..|s| - 1] == prefix;
      DigitsRoundTrip(n / 10);
    }
  }

  /** The text `${n}` gives an integral number: an optional minus sign and
      the digits. Reading it back gives `n`, so the text determines the number. */
  function FromInt(n: int): (s: string)
    ensures |s| >= 1
    ensures ToInt(s) == Some(n)
    ensures s[0] == '-' <==> n < 0
    ensures s[0] == '0' ==> s == "0"
    ensures n < 0 ==> |s| >= 2 && s[1] != '0'
  {
    if n < 0 then
      DigitsRoundTrip(-n);
      var s := "-" + Digits(-n);
      assert s[1..] == Digits(-n);
      s
    else
      DigitsRoundTrip(n);
      Digits(n)
  }
}

=== FILE: endpoints.dfy ===
/** The public methods of the client. Each validates its options, and only
    when they pass builds one request and interprets the response the service
    gives to it. The response is a parameter: it is what the service answers
    to the request in `sent`. */
module Endpoints {
  import opened Wrappers
  import opened Json
  import opened Config
  import opened Validation
  import opened Transport

  const ScreenshotPath := "/v1/screenshot"
  const PdfPath := "/v1/pdf"
  const VideoPath := "/v1/video"
  const BatchPath := "/v1/screenshot/batch"
  const BatchStatusPrefix := "/v1/screenshot/batch/"
  const ExtractPath := "/v1/extract"
  const AnalyzePath := "/v1/analyze"
  const DevicesPath := "/v1/devices"
  const CapabilitiesPath := "/v1/capabilities"
  const UsagePath := "/v1/usage"

  /** What a successful call returns: a byte buffer or a decoded JSON value. */
  datatype Payload = Bytes(data: seq<byte>) | Parsed(value: Value)

  /** Why a call fails: its options were rejected before any request, the
      service answered with a non-OK status, or an OK body was not JSON. */
  datatype Failure = Invalid(message: string) | Service(error: ApiError) | Undecodable

  /** One call: the request handed to `fetch`, if any, and its outcome. */
  datatype Exchange = Exchange(sent: Option<Request>, outcome: Result<Payload, Failure>)

  /** How an OK response is read: `arrayBuffer()` or `json()`. */
  datatype Decoding = Raw | AsJson

  /** The screenshot and video rule: `'binary'` or a falsy `responseType`
      returns the bytes; any other value (`'base64'`, `'json'`, anything
      unexpected) reads the body as JSON. */
  function DecodingFor(responseType: Option<Value>): (d: Decoding)
    ensures d == Raw <==> responseType == Some(Str("binary")) || !Truthy(responseType)
    ensures responseType == Some(Str("base64")) || responseType == Some(Str("json")) ==> d == AsJson
  {
    if responseType == Some(Str("binary")) || !Truthy(responseType) then Raw else AsJson
  }

  /** Reading an OK response: bytes are returned unchanged; JSON is returned
      as decoded, and a body that is not JSON is a failure of its own. */
  function Decode(resp: Response, d: Decoding): (r: Result<Payload, Failure>)
    ensures d == Raw ==> r == Success(Bytes(resp.bytes))
    ensures d == AsJson ==> (r.Success? <==> resp.parsed.Some?)
    ensures d == AsJson && resp.parsed.Some? ==> r == Success(Parsed(resp.parsed.value))
    ensures d == AsJson && resp.parsed.None? ==> r == Failure(Undecodable)
  {
    match d
    case Raw => Success(Bytes(resp.bytes))
    case AsJson =>
      match resp.parsed
      case Some(v) => Success(Parsed(v))
      case None => Failure(Undecodable)
  }

  /** The shared shape of every endpoint: a rejected check sends nothing;
      otherwise exactly one request is built, a non-OK answer becomes the
      normalised error, and an OK answer is decoded. */
  function Perform(c: Client, problem: Option<string>, path: string, init: Option<Init>, d: Decoding, resp: Response): (x: Exchange)
    ensures x.sent.None? <==> problem.Some?
    ensures problem.Some? ==> x.outcome == Failure(Invalid(problem.value))
    ensures problem.None? ==> x.sent == Some(BuildRequest(c, path, init))
    ensures problem.None? && !IsOk(resp.status) ==>
      x.outcome == Failure(Service(NormalizeError(resp.status, resp.parsed)))
    ensures problem.None? && IsOk(resp.status) ==> x.outcome == Decode(resp, d)
  {
    match problem
    case Some(message) => Exchange(None, Failure(Invalid(message)))
    case None =>
      var outcome :=
        match Dispatch(resp)
        case Failure(e) => Failure(Service(e))
        case Success(ok) => Decode(ok, d);
      Exchange(Some(BuildRequest(c, path, init)), outcome)
  }

  /** `init` for a POST whose body is the JSON serialisation of `body`. */
  function PostJson(body: Object): (r: Option<Init>)
    ensures r.Some? && r.value.verb == Post && r.value.body == Some(body)
    ensures forall c: Client, path: string :: BuildRequest(c, path, r).headers == DefaultHeaders(c.apiKey)
  {
    Some(Init(Post, Some(body), map[]))
  }

  /** `screenshot(options)`. The options are sent as they are; the response is
      read according to `responseType`. */
  function Screenshot(c: Client, options: Object, resp: Response): (x: Exchange)
    ensures x.sent.Some? <==> Truthy(Field(options, "url")) || Truthy(Field(options, "html")) || Truthy(Field(options, "markdown"))
    ensures x.sent.Some? ==> x.sent.value.verb == Post && x.sent.value.body == Some(options)
    ensures x.sent.Some? ==> x.sent.value.url == c.baseUrl + ScreenshotPath
    ensures x.sent.Some? && IsOk(resp.status) ==> x.outcome == Decode(resp, DecodingFor(Field(options, "responseType")))
    ensures x.sent.Some? && IsOk(resp.status) && DecodingFor(Field(options, "responseType")) == Raw ==>
      x.outcome == Success(Bytes(resp.bytes))
    ensures x.sent.Some? && IsOk(resp.status) && DecodingFor(Field(options, "responseType")) == AsJson ==>
      (x.outcome.Success? <==> resp.parsed.Some?)
  {
    Perform(c, ScreenshotProblem(options), ScreenshotPath, PostJson(options), DecodingFor(Field(options, "responseType")), resp)
  }

  /** `screenshotFromHtml(html, options)`: `screenshot({...options, html})`. */
  function ScreenshotFromHtml(c: Client, html: string, options: Object, resp: Response): (x: Exchange)
    ensures html != "" ==> x.sent.Some?
    ensures x.sent.Some? ==> x.sent.value.body == Some(options["html" := Str(html)])
  {
    Screenshot(c, options["html" := Str(html)], resp)
  }

  /** `screenshotDevice(url, device, options)`: `screenshot({...options, url, device})`. */
  function ScreenshotDevice(c: Client, url: string, device: string, options: Object, resp: Response): (x: Exchange)
    ensures url != "" ==> x.sent.Some?
    ensures x.sent.Some? ==> x.sent.value.body == Some(options["url" := Str(url)]["device" := Str(device)])
  {
    Screenshot(c, options["url" := Str(url)]["device" := Str(device)], resp)
  }

  /** `screenshotFromMarkdown(markdown, options)`: `screenshot({...options, markdown})`. */
  function ScreenshotFromMarkdown(c: Client, markdown: string, options: Object, resp: Response): (x: Exchange)
    ensures markdown != "" ==> x.sent.Some?
    ensures x.sent.Some? ==> x.sent.value.body == Some(options["markdown" := Str(markdown)])
  {
    Screenshot(c, options["markdown" := Str(markdown)], resp)
  }

  /** The body `pdf` sends: the options with `format` forced to `'pdf'`. */
  function PdfBody(options: Object): (b: Object)
    ensures Field(b, "format") == Some(Str("pdf"))
    ensures b.Keys == options.Keys + {"format"}
    ensures forall k :: k != "format" ==> Field(b, k) == Field(options, k)
  {
    options["format" := Str("pdf")]
  }

  /** `pdf(options)`: `url` or `html` is required, the body always asks for the
      `pdf` format, and the bytes are returned whatever `responseType` says. */
  function Pdf(c: Client, options: Object, resp: Response): (x: Exchange)
    ensures x.sent.Some? <==> Truthy(Field(options, "url")) || Truthy(Field(options, "html"))
    ensures x.sent.Some? ==> x.sent.value.body == Some(PdfBody(options)) && x.sent.value.url == c.baseUrl + PdfPath
    ensures x.sent.Some? && IsOk(resp.status) ==> x.outcome == Success(Bytes(resp.bytes))
  {
    Perform(c, PdfProblem(options), PdfPath, PostJson(PdfBody(options)), Raw, resp)
  }

  /** `video(options)`: `url` is required; the response is read according to
      `responseType`, as for screenshots. */
  function Video(c: Client, options: Object, resp: Response): (x: Exchange)
    ensures x.sent.Some? <==> Truthy(Field(options, "url"))
    ensures x.sent.Some? ==> x.sent.value.body == Some(options) && x.sent.value.url == c.baseUrl + VideoPath
    ensures x.sent.Some? && IsOk(resp.status) ==> x.outcome == Decode(resp, DecodingFor(Field(options, "responseType")))
    ensures x.sent.Some? && IsOk(resp.status) && DecodingFor(Field(options, "responseType")) == Raw ==>
      x.outcome == Success(Bytes(resp.bytes))
    ensures x.sent.Some? && IsOk(resp.status) && DecodingFor(Field(options, "responseType")) == AsJson ==>
      (x.outcome.Success? <==> resp.parsed.Some?)
  {
    Perform(c, UrlProblem(options), VideoPath, PostJson(options), DecodingFor(Field(options, "responseType")), resp)
  }

  /** `extract(options)`: `url` is required and the answer is JSON. */
  function Extract(c: Client, options: Object, resp: Response): (x: Exchange)
    ensures x.sent.Some? <==> Truthy(Field(options, "url"))
    ensures x.sent.Some? ==> x.sent.value.body == Some(options) && x.sent.value.url == c.baseUrl + ExtractPath
    ensures x.sent.Some? && IsOk(resp.status) ==> x.outcome == Decode(resp, AsJson)
  {
    Perform(c, UrlProblem(options), ExtractPath, PostJson(options), AsJson, resp)
  }

  /** The extraction types the `extractX(url)` wrappers ask for. */
  datatype ExtractKind = Markdown | Article | Structured | Text | Links | Images | Metadata

  function KindName(k: ExtractKind): string {
    match k
    case Markdown => "markdown"
    case Article => "article"
    case Structured => "structured"
    case Text => "text"
    case Links => "links"
    case Images => "images"
    case Metadata => "metadata"
  }

  /** `extractMarkdown(url)` and its siblings: `extract({url, type})` with no
      other field set, so they fail exactly when `url` is empty. */
  function ExtractAs(c: Client, url: string, kind: ExtractKind, resp: Response): (x: Exchange)
    ensures x.sent.None? <==> url == ""
    ensures x.sent.None? ==> x.outcome == Failure(Invalid(UrlRequired))
    ensures x.sent.Some? ==> x.sent.value.body.Some? && x.sent.value.body.value.Keys == {"url", "type"}
    ensures x.sent.Some? ==> x.sent.value.body == Some(map["url" := Str(url), "type" := Str(KindName(kind))])
    ensures x == Extract(c, map["url" := Str(url), "type" := Str(KindName(kind))], resp)
  {
    Extract(c, map["url" := Str(url), "type" := Str(KindName(kind))], resp)
  }

  /** `analyze(options)`: the first falsy field among url, prompt, provider and
      apiKey is reported; the answer is JSON. */
  function Analyze(c: Client, options: Object, resp: Response): (x: Exchange)
    ensures x.sent.Some? <==> FirstFalsy(options, AnalyzeFields) == |AnalyzeFields|
    ensures x.sent.None? ==> x.outcome == Failure(Invalid(AnalyzeMessages[FirstFalsy(options, AnalyzeFields)]))
    ensures x.sent.Some? ==> x.sent.value.body == Some(options) && x.sent.value.url == c.baseUrl + AnalyzePath
  {
    Perform(c, AnalyzeProblem(options), AnalyzePath, PostJson(options), AsJson, resp)
  }

  /** `batch(options)`: `urls` must be present and non-empty; the answer is JSON. */
  function Batch(c: Client, options: Object, resp: Response): (x: Exchange)
    ensures "urls" !in options ==> x.outcome == Failure(Invalid(UrlsRequired)) && x.sent.None?
    ensures forall items :: Field(options, "urls") == Some(Arr(items)) ==> (x.sent.Some? <==> |items| > 0)
    ensures x.sent.Some? ==> x.sent.value.body == Some(options) && x.sent.value.url == c.baseUrl + BatchPath
  {
    Perform(c, BatchProblem(options), BatchPath, PostJson(options), AsJson, resp)
  }

  /** `getBatchStatus(jobId)`: a bodiless GET of the job's path. */
  function BatchStatus(c: Client, jobId: string, resp: Response): (x: Exchange)
    ensures x.sent.Some? && x.sent.value.verb == Get && x.sent.value.body.None?
    ensures x.sent.value.url == c.baseUrl + BatchStatusPrefix + jobId
  {
    Perform(c, None, BatchStatusPrefix + jobId, None, AsJson, resp)
  }

  /** The three read-only lookups. */
  datatype Lookup = Devices | Capabilities | Usage

  function LookupPath(l: Lookup): string {
    match l
    case Devices => DevicesPath
    case Capabilities => CapabilitiesPath
    case Usage => UsagePath
  }

  /** `getDevices()`, `getCapabilities()` and `getUsage()`: a bodiless GET
      whose answer is JSON. */
  function Fetch(c: Client, l: Lookup, resp: Response): (x: Exchange)
    ensures x.sent.Some? && x.sent.value.verb == Get && x.sent.value.body.None?
    ensures x.sent.value.url == c.baseUrl + LookupPath(l)
    ensures IsOk(resp.status) ==> x.outcome == Decode(resp, AsJson)
  {
    Perform(c, None, LookupPath(l), None, AsJson, resp)
  }
}

=== FILE: json.dfy ===
/** JavaScript values as they reach the client: option objects written by the
    caller and bodies decoded by `response.json()`. Numbers are integers here. */
module Json {
  import opened Wrappers
  import Decimal

  datatype Value =
    | Null
    | Bool(b: bool)
    | Num(n: int)
    | Str(s: string)
    | Arr(items: seq<Value>)
    | Obj(fields: map<string, Value>)

  /** A plain object, such as the options record passed to an endpoint. A key
      that is absent stands for a property that is `undefined`. */
  type Object = map<string, Value>

  /** `o.key` on a plain object. */
  function Field(o: Object, key: string): (r: Option<Value>)
    ensures r.Some? <==> key in o
    ensures r.Some? ==> r.value == o[key]
  {
    if key in o then Some(o[key]) else None
  }

  /** `v.key` on a value that is not `null`: only objects carry the property
      names this client reads; strings, numbers, booleans and arrays have none
      of them. */
  function Prop(v: Value, key: string): (r: Option<Value>)
    ensures r.Some? ==> v.Obj? && key in v.fields && r.value == v.fields[key]
    ensures v.Obj? && key in v.fields ==> r.Some?
  {
    match v
    case Obj(fields) => Field(fields, key)
    case _ => None
  }

  /** Optional chaining `v?.key`: `undefined` when `v` is `undefined` or `null`. */
  function OptionalProp(v: Option<Value>, key: string): (r: Option<Value>)
    ensures v.None? || v == Some(Null) ==> r.None?
    ensures v.Some? && v.value != Null ==> r == Prop(v.value, key)
  {
    match v
    case None => None
    case Some(Null) => None
    case Some(x) => Prop(x, key)
  }

  /** JavaScript truthiness of a possibly `undefined` value: `undefined`,
      `null`, `false`, `0` and `""` are falsy; every array and object is truthy. */
  predicate Truthy(v: Option<Value>)
    ensures Truthy(v) <==> v.Some? && v.value !in {Null, Bool(false), Num(0), Str("")}
  {
    match v
    case None => false
    case Some(Null) => false
    case Some(Bool(b)) => b
    case Some(Num(n)) => n != 0
    case Some(Str(s)) => s != ""
    case Some(Arr(_)) => true
    case Some(Obj(_)) => true
  }

  /** Truthiness of an optional string field: missing and empty both count as missing. */
  predicate TruthyText(v: Option<string>)
    ensures TruthyText(v) <==> v !in {None, Some("")}
  {
    v.Some? && v.value != ""
  }

  /** Truthiness of an optional number field: missing and zero both count as missing. */
  predicate TruthyNumber(v: Option<int>)
    ensures TruthyNumber(v) <==> v !in {None, Some(0)}
  {
    v.Some? && v.value != 0
  }

  /** Whether `String(v)` returns rather than throws. A decoded object that
      has its own `toString` key has a `toString` that is not a function, and
      its inherited `valueOf` returns the object itself, so the conversion
      throws a TypeError; an array converts each item, so it throws when any
      item does. */
  predicate Printable(v: Value)
    decreases v
  {
    match v
    case Obj(fields) => "toString" !in fields
    case Arr(items) => forall i :: 0 <= i < |items| ==> Printable(items[i])
    case _ => true
  }

  /** `String(v)`, the conversion `new Error(v)` applies to its message;
      `None` when it throws. */
  function ToText(v: Value): (t: Option<string>)
    ensures t.Some? <==> Printable(v)
    ensures v.Str? ==> t == Some(v.s)
    ensures v.Num? ==> t.Some? && Decimal.ToInt(t.value) == Some(v.n)
    ensures v.Obj? && "toString" !in v.fields ==> t == Some("[object Object]")
    decreases v, 1
  {
    match v
    case Null => Some("null")
    case Bool(b) => Some(if b then "true" else "false")
    case Num(n) => Some(Decimal.FromInt(n))
    case Str(s) => Some(s)
    case Arr(items) => JoinItems(items)
    case Obj(fields) => if "toString" in fields then None else Some("[object Object]")
  }

  /** `Array.prototype.join(",")`: `null` items contribute the empty string,
      every other item its `String`; the join throws when any item's does. */
  function JoinItems(items: seq<Value>): (t: Option<string>)
    ensures t.Some? <==> forall i :: 0 <= i < |items| ==> Printable(items[i])
    ensures |items| == 0 ==> t == Some("")
    ensures |items| == 1 && items[0] == Null ==> t == Some("")
    decreases items, 0
  {
    if |items| == 0 then Some("")
    else
      var first := if items[0] == Null then Some("") else ToText(items[0]);
      if first.None? then None
      else if |items| == 1 then first
      else
        var rest := JoinItems(items[1..]);
        assert forall i :: 1 <= i < |items| ==> items[i] == items[1..][i - 1];
        if rest.None? then None else Some(first.value + "," + rest.value)
  }
}

=== FILE: snapapi.dfy ===
/** The client as a whole: every public call as one operation type, and the
    properties that hold across all of them. */
module SnapApi {
  import opened Wrappers
  import opened Json
  import opened Config
  import opened Validation
  import opened Transport
  import opened Endpoints

  /** A call of one public method with its arguments. */
  datatype Operation =
    | TakeScreenshot(options: Object)
    | ScreenshotHtml(html: string, options: Object)
    | ScreenshotOnDevice(url: string, device: string, options: Object)
    | ScreenshotMarkdown(markdown: string, options: Object)
    | MakePdf(options: Object)
    | RecordVideo(options: Object)
    | SubmitBatch(options: Object)
    | GetBatchStatus(jobId: string)
    | ExtractContent(options: Object)
    | ExtractFrom(url: string, kind: ExtractKind)
    | AnalyzePage(options: Object)
    | LookUp(what: Lookup)

  function Run(c: Client, op: Operation, resp: Response): Exchange {
    match op
    case TakeScreenshot(o) => Screenshot(c, o, resp)
    case ScreenshotHtml(h, o) => ScreenshotFromHtml(c, h, o, resp)
    case ScreenshotOnDevice(u, d, o) => ScreenshotDevice(c, u, d, o, resp)
    case ScreenshotMarkdown(m, o) => ScreenshotFromMarkdown(c, m, o, resp)
    case MakePdf(o) => Pdf(c, o, resp)
    case RecordVideo(o) => Video(c, o, resp)
    case SubmitBatch(o) => Batch(c, o, resp)
    case GetBatchStatus(id) => BatchStatus(c, id, resp)
    case ExtractContent(o) => Extract(c, o, resp)
    case ExtractFrom(u, k) => ExtractAs(c, u, k, resp)
    case AnalyzePage(o) => Analyze(c, o, resp)
    case LookUp(l) => Fetch(c, l, resp)
  }

  /** Every request any method sends goes to the configured origin, carries
      exactly the three default headers (no method passes its own), and is
      aborted after the configured delay. */
  lemma EveryRequestAuthenticated(c: Client, op: Operation, resp: Response)
    ensures var x := Run(c, op, resp);
      x.sent.Some? ==>
        && x.sent.value.url[..|c.baseUrl|] == c.baseUrl
        && x.sent.value.headers == DefaultHeaders(c.apiKey)
        && x.sent.value.headers[ApiKeyHeader] == c.apiKey
        && x.sent.value.abortAfter == c.timeout
  {
  }

  /** Every call ends in exactly one way: a rejection with nothing sent, or a
      sent request whose non-OK answer is a service error carrying the real
      status and whose OK answer is never a service error. */
  lemma OutcomeFollowsStatus(c: Client, op: Operation, resp: Response)
    ensures var x := Run(c, op, resp);
      && (x.sent.None? <==> x.outcome.Failure? && x.outcome.error.Invalid?)
      && (x.sent.Some? && !IsOk(resp.status) ==>
            x.outcome.Failure? && x.outcome.error.Service? && x.outcome.error.error.statusCode == resp.status)
      && (x.sent.Some? && IsOk(resp.status) ==>
            x.outcome.Success? || x.outcome == Failure(Undecodable))
  {
  }

  /** Whether an OK answer to the operation is returned as bytes: always for
      `pdf`, for screenshots and videos when `responseType` is `'binary'` or
      falsy, and never for the other methods. The wrappers' own arguments never
      set `responseType`, so the caller's options decide. */
  predicate ReadsBytes(op: Operation) {
    match op
    case TakeScreenshot(o) => DecodingFor(Field(o, "responseType")) == Raw
    case ScreenshotHtml(_, o) => DecodingFor(Field(o, "responseType")) == Raw
    case ScreenshotOnDevice(_, _, o) => DecodingFor(Field(o, "responseType")) == Raw
    case ScreenshotMarkdown(_, o) => DecodingFor(Field(o, "responseType")) == Raw
    case RecordVideo(o) => DecodingFor(Field(o, "responseType")) == Raw
    case MakePdf(_) => true
    case _ => false
  }

  /** For an OK answer to a sent request, every method returns the response
      bytes unchanged exactly when `ReadsBytes` holds, and otherwise the decoded
      JSON, failing only when the body is not JSON. */
  lemma ResponseModeAcrossOperations(c: Client, op: Operation, resp: Response)
    requires IsOk(resp.status)
    ensures var x := Run(c, op, resp);
      x.sent.Some? ==>
        && (ReadsBytes(op) ==> x.outcome == Success(Bytes(resp.bytes)))
        && (!ReadsBytes(op) && resp.parsed.Some? ==> x.outcome == Success(Parsed(resp.parsed.value)))
        && (!ReadsBytes(op) && resp.parsed.None? ==> x.outcome == Failure(Undecodable))
  {
  }

  /** Markdown alone is enough for a screenshot but not for a PDF. */
  lemma MarkdownOnlyPdfRejected(c: Client, markdown: string, resp: Response)
    requires markdown != ""
    ensures Pdf(c, map["markdown" := Str(markdown)], resp) == Exchange(None, Failure(Invalid(PdfSourceRequired)))
    ensures Screenshot(c, map["markdown" := Str(markdown)], resp).sent.Some?
  {
  }

  /** A PNG returned with status 200 to a screenshot without `responseType`
      comes back byte for byte. */
  lemma PngScreenshotExample(c: Client, url: string)
    requires url != ""
    ensures var png: seq<byte> := [0x89, 0x50, 0x4E, 0x47];
      Screenshot(c, map["url" := Str(url)], Response(200, png, None)).outcome == Success(Bytes(png))
  {
  }

  /** The analyze message names the first missing field only. */
  lemma AnalyzeReportsFirstMissing(c: Client, resp: Response)
    ensures Analyze(c, map["url" := Str("https://example.com"), "provider" := Str("openai")], resp).outcome
      == Failure(Invalid(PromptRequired))
  {
  }
}

=== FILE: transport.dfy ===
/** The private `request` and `parseError` of the client: the outgoing request
    descriptor, and how a response status becomes either the response itself
    or a normalised error. The fetch itself is not modelled; the response is
    supplied as a value. */
module Transport {
  import opened Wrappers
  import opened Json
  import opened Config
  import Decimal

  newtype byte = b: int | 0 <= b < 256

  const ApiKeyHeader := "X-Api-Key"
  const ContentTypeHeader := "Content-Type"
  const UserAgentHeader := "User-Agent"
  const JsonContentType := "application/json"
  const ClientAgent := "snapapi-js/1.2.0"
  const UnknownErrorCode := "UNKNOWN_ERROR"

  type Headers = map<string, string>

  datatype Method = Get | Post

  /** The optional `init` argument of `request`: HTTP method, JSON body and extra headers. */
  datatype Init = Init(verb: Method, body: Option<Object>, headers: Headers)

  /** What is handed to `fetch`: absolute target, method, the object that is
      serialised as the JSON body and the headers; and the delay passed to
      `setTimeout` for the abort. */
  datatype Request = Request(url: string, verb: Method, body: Option<Object>, headers: Headers, abortAfter: int)

  /** The response as seen by the client: its status, its raw bytes, and what
      `response.json()` yields (`None` when the body is not JSON). */
  datatype Response = Response(status: int, bytes: seq<byte>, parsed: Option<Value>)

  /** The error thrown for a non-OK response. `code` and `details` hold whatever
      value the body supplied; `message` is the text of the `Error`. */
  datatype ApiError = ApiError(message: string, code: Value, statusCode: int, details: Option<Value>)

  const MaxTimerDelay := 2147483647

  /** The delay after which Node's `setTimeout` fires for a requested delay:
      one outside 1 to 2147483647 ms is replaced by 1 ms, so a client built
      with a negative or very large timeout aborts every request at once. */
  function TimerDelay(requested: int): (d: int)
    ensures 1 <= d <= MaxTimerDelay
    ensures d == requested <==> 1 <= requested <= MaxTimerDelay
    ensures d != requested ==> d == 1
  {
    if 1 <= requested <= MaxTimerDelay then requested else 1
  }

  /** The abort timer of every request a constructed client sends fires after
      the configured timeout when that lies in 1 to 2147483647 ms, after the
      60000 ms default when the timeout was left out or given as `0`, and
      after 1 ms for any other value (a negative or too large timeout). */
  lemma AbortDelayOfClient(s: Settings, path: string, init: Option<Init>)
    requires NewClient(s).Success?
    ensures var delay := TimerDelay(BuildRequest(NewClient(s).value, path, init).abortAfter);
      && (!TruthyNumber(s.timeout) ==> delay == DefaultTimeout)
      && (TruthyNumber(s.timeout) && 1 <= s.timeout.value <= MaxTimerDelay ==> delay == s.timeout.value)
      && (TruthyNumber(s.timeout) && !(1 <= s.timeout.value <= MaxTimerDelay) ==> delay == 1)
  {
  }

  /** `response.ok`: a status in the range 200 to 299. */
  predicate IsOk(status: int)
    ensures IsOk(status) <==> status / 100 == 2
  {
    200 <= status <= 299
  }

  /** The three headers every request starts with. */
  function DefaultHeaders(apiKey: string): (h: Headers)
    ensures h.Keys == {ApiKeyHeader, ContentTypeHeader, UserAgentHeader}
    ensures h[ApiKeyHeader] == apiKey
    ensures h[ContentTypeHeader] == JsonContentType && h[UserAgentHeader] == ClientAgent
  {
    map[ApiKeyHeader := apiKey, ContentTypeHeader := JsonContentType, UserAgentHeader := ClientAgent]
  }

  /** Object spread `{...base, ...extra}` on header records: later keys win. */
  function Overlay(base: Headers, extra: Headers): (h: Headers)
    ensures h.Keys == base.Keys + extra.Keys
    ensures forall k :: k in extra ==> h[k] == extra[k]
    ensures forall k :: k in base && k !in extra ==> h[k] == base[k]
  {
    base + extra
  }

  /** The request descriptor `request(path, init)` hands to `fetch`. Without an
      `init` the request is a bodiless GET carrying only the default headers. */
  function BuildRequest(c: Client, path: string, init: Option<Init>): (r: Request)
    ensures |r.url| == |c.baseUrl| + |path|
    ensures r.url[..|c.baseUrl|] == c.baseUrl && r.url[|c.baseUrl|..] == path
    ensures init.None? ==> r.verb == Get && r.body.None? && r.headers == DefaultHeaders(c.apiKey)
    ensures init.Some? ==> r.verb == init.value.verb && r.body == init.value.body
    ensures init.Some? ==> r.headers.Keys == DefaultHeaders(c.apiKey).Keys + init.value.headers.Keys
    ensures init.Some? ==> forall k :: k in init.value.headers ==> r.headers[k] == init.value.headers[k]
    ensures init.Some? ==> forall k :: k in DefaultHeaders(c.apiKey) && k !in init.value.headers ==>
      r.headers[k] == DefaultHeaders(c.apiKey)[k]
    ensures r.abortAfter == c.timeout
  {
    var extra := if init.Some? then init.value.headers else map[];
    Request(
      c.baseUrl + path,
      if init.Some? then init.value.verb else Get,
      if init.Some? then init.value.body else None,
      Overlay(DefaultHeaders(c.apiKey), extra),
      c.timeout)
  }

  /** Every default header is present; a caller header of the same name replaces
      the default and leaves the other defaults untouched. */
  lemma HeaderOverride(c: Client, path: string, init: Init, key: string)
    requires key in DefaultHeaders(c.apiKey)
    ensures var h := BuildRequest(c, path, Some(init)).headers;
      key in h && h[key] == (if key in init.headers then init.headers[key] else DefaultHeaders(c.apiKey)[key])
  {
  }

  /** The `HTTP <status>` message used when the body supplies none. */
  function StatusMessage(status: int): (m: string)
    ensures |m| > 5 && m[..5] == "HTTP "
    ensures Decimal.ToInt(m[5..]) == Some(status)
    ensures m == "HTTP " + Decimal.FromInt(status)
  {
    assert ("HTTP " + Decimal.FromInt(status))[5..] == Decimal.FromInt(status);
    "HTTP " + Decimal.FromInt(status)
  }

  /** The body `parseError` reads: what `response.json()` yielded, or `{}` when
      it rejected. */
  function ErrorBody(parsed: Option<Value>): (b: Value)
    ensures parsed.None? ==> b == Obj(map[])
    ensures parsed.Some? ==> b == parsed.value
  {
    parsed.GetOr(Obj(map[]))
  }

  /** Whether `String(error.message)` would throw: the message is truthy and
      not `Printable`. */
  predicate UnprintableMessage(errorField: Option<Value>) {
    var message := OptionalProp(errorField, "message");
    Truthy(message) && !Printable(message.value)
  }

  /** Builds the error from `body.error` (already read) and the status: the
      status is copied verbatim; `code` is `error.code` when truthy and
      `UNKNOWN_ERROR` otherwise; the message is `String(error.message)` when
      that is truthy and converts, and `HTTP <status>` otherwise; `details`
      is `error.details` or absent. A missing or `null` `error` gives the
      fallback error. */
  function ErrorFrom(status: int, errorField: Option<Value>): (e: ApiError)
    ensures e.statusCode == status
    ensures var code := OptionalProp(errorField, "code");
      if Truthy(code) then Some(e.code) == code else e.code == Str(UnknownErrorCode)
    ensures var message := OptionalProp(errorField, "message");
      if Truthy(message) && Printable(message.value) then Some(e.message) == ToText(message.value)
      else e.message == StatusMessage(status)
    ensures e.details == OptionalProp(errorField, "details")
    ensures errorField.None? || errorField == Some(Null) ==>
      e == ApiError(StatusMessage(status), Str(UnknownErrorCode), status, None)
  {
    var message := OptionalProp(errorField, "message");
    var code := OptionalProp(errorField, "code");
    ApiError(
      if Truthy(message) && Printable(message.value) then ToText(message.value).value else StatusMessage(status),
      if Truthy(code) then code.value else Str(UnknownErrorCode),
      status,
      OptionalProp(errorField, "details"))
  }

  /** The `error` member of a decoded error body, read as `body?.error`; the
      client itself writes `body.error`, which throws on a `null` body. */
  function ErrorMember(parsed: Option<Value>): (r: Option<Value>)
    ensures parsed.None? || parsed == Some(Null) ==> r.None?
    ensures parsed.Some? && parsed.value != Null ==> r == Prop(parsed.value, "error")
  {
    OptionalProp(Some(ErrorBody(parsed)), "error")
  }

  /** The normalised error for a non-OK response. The status is copied
      verbatim; `code` is the body's `error.code` when truthy and
      `UNKNOWN_ERROR` otherwise; the message is `String(error.message)` when
      that is truthy and converts, and `HTTP <status>` otherwise; `details` is
      `error.details` or absent. An undecodable body and a `null` body behave
      exactly like `{}`. */
  function NormalizeError(status: int, parsed: Option<Value>): (e: ApiError)
    ensures e.statusCode == status
    ensures var code := OptionalProp(ErrorMember(parsed), "code");
      if Truthy(code) then Some(e.code) == code else e.code == Str(UnknownErrorCode)
    ensures var message := OptionalProp(ErrorMember(parsed), "message");
      if Truthy(message) && Printable(message.value) then Some(e.message) == ToText(message.value)
      else e.message == StatusMessage(status)
    ensures e.details == OptionalProp(ErrorMember(parsed), "details")
    ensures parsed.None? || parsed == Some(Null) ==>
      e == ApiError(StatusMessage(status), Str(UnknownErrorCode), status, None)
  {
    ErrorFrom(status, ErrorMember(parsed))
  }

  /** What escapes `parseError` as written: the error, or one of the two
      TypeErrors it can throw. */
  datatype Escape = Normalized(error: ApiError) | NullBodyTypeError | MessageTypeError

  /** Whether the written `parseError` throws rather than returning an error. */
  predicate Escapes(parsed: Option<Value>) {
    parsed == Some(Null) || UnprintableMessage(ErrorMember(parsed))
  }

  /** `parseError` exactly as written. `body.error` is read without a guard on
      `body`, so a body that decodes to `null` throws a TypeError; and
      `new Error(message)` converts a truthy message with `String`, which
      throws a TypeError for an object with its own `toString` key. */
  function ParseErrorAsWritten(status: int, parsed: Option<Value>): (r: Escape)
    ensures r.NullBodyTypeError? <==> parsed == Some(Null)
    ensures r.MessageTypeError? <==> parsed != Some(Null) && UnprintableMessage(ErrorMember(parsed))
    ensures r.Normalized? <==> !Escapes(parsed)
  {
    var body := ErrorBody(parsed);
    if body == Null then NullBodyTypeError
    else
      var errorField := Prop(body, "error");
      if UnprintableMessage(errorField) then MessageTypeError
      else Normalized(ErrorFrom(status, errorField))
  }

  /** The written `parseError` and the normalisation agree on every body it
      does not throw on; on the others the written code loses the status. */
  lemma AsWrittenAgreesUnlessEscaping(status: int, parsed: Option<Value>)
    ensures !Escapes(parsed) ==> ParseErrorAsWritten(status, parsed) == Normalized(NormalizeError(status, parsed))
    ensures parsed == Some(Null) ==> ParseErrorAsWritten(status, parsed) == NullBodyTypeError
    ensures parsed != Some(Null) && UnprintableMessage(ErrorMember(parsed)) ==>
      ParseErrorAsWritten(status, parsed) == MessageTypeError
  {
  }

  /** Concrete witness: a 500 response whose body is the JSON text `null`. */
  lemma NullBodyLosesStatus()
    ensures ParseErrorAsWritten(500, Some(Null)) == NullBodyTypeError
    ensures NormalizeError(500, Some(Null)).statusCode == 500
    ensures NormalizeError(500, Some(Null)).code == Str(UnknownErrorCode)
  {
  }

  /** Concrete witness: a 500 response whose `error.message` is an object with
      its own `toString` key. */
  lemma ObjectMessageLosesStatus()
    ensures var body := Obj(map["error" := Obj(map["message" := Obj(map["toString" := Str("x")])])]);
      && ParseErrorAsWritten(500, Some(body)) == MessageTypeError
      && NormalizeError(500, Some(body)) == ApiError(StatusMessage(500), Str(UnknownErrorCode), 500, None)
  {
  }

  /** `request` after `fetch` returns: an OK response is passed on untouched,
      any other status becomes the normalised error carrying that status. */
  function Dispatch(resp: Response): (r: Result<Response, ApiError>)
    ensures r.Success? <==> IsOk(resp.status)
    ensures r.Success? ==> r.value == resp
    ensures r.Failure? ==> r.error == NormalizeError(resp.status, resp.parsed) && r.error.statusCode == resp.status
  {
    if IsOk(resp.status) then Success(resp) else Failure(NormalizeError(resp.status, resp.parsed))
  }

  /** `request` exactly as written: a non-OK response is handed to the written
      `parseError`, so its TypeErrors escape in place of an error. */
  function DispatchAsWritten(resp: Response): (r: Result<Response, Escape>)
    ensures r.Success? <==> IsOk(resp.status)
    ensures r.Success? ==> r.value == resp
    ensures r.Failure? ==> r.error == ParseErrorAsWritten(resp.status, resp.parsed)
    ensures r.Failure? ==> (r.error.Normalized? <==> !Escapes(resp.parsed))
  {
    if IsOk(resp.status) then Success(resp) else Failure(ParseErrorAsWritten(resp.status, resp.parsed))
  }

  /** The written `request` and `Dispatch` differ only on a non-OK response
      whose body makes the written `parseError` throw: there the status is
      lost, while `Dispatch` keeps it. */
  lemma DispatchDiffersOnlyOnEscapes(resp: Response)
    ensures IsOk(resp.status) ==> DispatchAsWritten(resp) == Success(resp) && Dispatch(resp) == Success(resp)
    ensures !IsOk(resp.status) && !Escapes(resp.parsed) ==>
      DispatchAsWritten(resp) == Failure(Normalized(Dispatch(resp).error))
    ensures !IsOk(resp.status) && Escapes(resp.parsed) ==>
      DispatchAsWritten(resp).error != Normalized(Dispatch(resp).error) && Dispatch(resp).error.statusCode == resp.status
  {
  }

  /** A well-formed error body yields its own code and message; the status
      still comes from the response. */
  lemma WellFormedErrorBody(status: int, bytes: seq<byte>, code: string, message: string)
    requires !IsOk(status) && code != "" && message != ""
    ensures var body := Obj(map["error" := Obj(map["code" := Str(code), "message" := Str(message)])]);
      Dispatch(Response(status, bytes, Some(body))) == Failure(ApiError(message, Str(code), status, None))
  {
  }

  /** The rate-limit example: status 429 with code `RATE_LIMITED`. */
  lemma RateLimitedExample(bytes: seq<byte>)
    ensures var body := Obj(map["error" := Obj(map["code" := Str("RATE_LIMITED"), "message" := Str("too many requests")])]);
      Dispatch(Response(429, bytes, Some(body))) == Failure(ApiError("too many requests", Str("RATE_LIMITED"), 429, None))
  {
  }

  /** An error body Dispatch cannot use (undecodable, or with no `error`
      member) yields `UNKNOWN_ERROR` and a message from which the status can be
      read back. */
  lemma UnusableBodyFallback(status: int, parsed: Option<Value>)
    requires !IsOk(status)
    requires ErrorMember(parsed).None?
    ensures var e := NormalizeError(status, parsed);
      e.code == Str(UnknownErrorCode) && e.message == StatusMessage(status) && e.details.None?
  {
  }
}

=== FILE: validation.dfy ===
/** The checks each endpoint performs on its options before any request is
    made. Each yields the message of the thrown `Error`, or `None` when the
    options pass. */
module Validation {
  import opened Wrappers
  import opened Json

  const SourceRequired := "Either url, html, or markdown is required"
  const PdfSourceRequired := "Either url or html is required"
  const UrlRequired := "URL is required"
  const PromptRequired := "Prompt is required"
  const ProviderRequired := "Provider is required"
  const ProviderKeyRequired := "API key for AI provider is required"
  const UrlsRequired := "URLs array is required"

  /** The analyze fields in the order they are checked, and the message each
      one's absence produces. */
  const AnalyzeFields: seq<string> := ["url", "prompt", "provider", "apiKey"]
  const AnalyzeMessages: seq<string> := [UrlRequired, PromptRequired, ProviderRequired, ProviderKeyRequired]

  /** Reference definition for a sequence of required-field checks: the index
      of the first key whose property is falsy, or `|keys|` when all are truthy. */
  function FirstFalsy(o: Object, keys: seq<string>): (i: nat)
    ensures i <= |keys|
    ensures forall j :: 0 <= j < i ==> Truthy(Field(o, keys[j]))
    ensures i < |keys| ==> !Truthy(Field(o, keys[i]))
    decreases |keys|
  {
    if |keys| == 0 then 0
    else if !Truthy(Field(o, keys[0])) then 0
    else 1 + FirstFalsy(o, keys[1..])
  }

  /** `screenshot`: one of `url`, `html`, `markdown` must be truthy. */
  function ScreenshotProblem(o: Object): (r: Option<string>)
    ensures r.None? <==> exists k :: k in {"url", "html", "markdown"} && Truthy(Field(o, k))
    ensures r.Some? ==> r.value == SourceRequired
  {
    if !Truthy(Field(o, "url")) && !Truthy(Field(o, "html")) && !Truthy(Field(o, "markdown")) then
      Some(SourceRequired)
    else
      None
  }

  /** `pdf`: `url` or `html` must be truthy; markdown alone does not do. */
  function PdfProblem(o: Object): (r: Option<string>)
    ensures r.None? <==> exists k :: k in {"url", "html"} && Truthy(Field(o, k))
    ensures r.Some? ==> r.value == PdfSourceRequired
  {
    if !Truthy(Field(o, "url")) && !Truthy(Field(o, "html")) then Some(PdfSourceRequired) else None
  }

  /** `video` and `extract`: `url` must be truthy. */
  function UrlProblem(o: Object): (r: Option<string>)
    ensures r.None? <==> Truthy(Field(o, "url"))
    ensures r.Some? ==> r.value == UrlRequired
  {
    if !Truthy(Field(o, "url")) then Some(UrlRequired) else None
  }

  /** `analyze`: four checks in a fixed order; only the first failing one is
      reported, and the options pass only when all four fields are truthy. */
  function AnalyzeProblem(o: Object): (r: Option<string>)
    ensures var i := FirstFalsy(o, AnalyzeFields);
      (r.None? <==> i == |AnalyzeFields|) && (i < |AnalyzeFields| ==> r == Some(AnalyzeMessages[i]))
  {
    if !Truthy(Field(o, "url")) then Some(UrlRequired)
    else if !Truthy(Field(o, "prompt")) then Some(PromptRequired)
    else if !Truthy(Field(o, "provider")) then Some(ProviderRequired)
    else if !Truthy(Field(o, "apiKey")) then Some(ProviderKeyRequired)
    else None
  }

  /** `v.length === 0` for a truthy value: arrays and strings compare their
      length; an object only when it has a `length` property equal to 0;
      numbers and booleans have no length, so the comparison is false. */
  predicate LengthIsZero(v: Value)
    ensures v.Arr? ==> (LengthIsZero(v) <==> v.items == [])
    ensures v.Str? ==> (LengthIsZero(v) <==> v.s == "")
    ensures v.Null? || v.Bool? || v.Num? ==> !LengthIsZero(v)
  {
    match v
    case Arr(items) => |items| == 0
    case Str(s) => |s| == 0
    case Obj(fields) => Field(fields, "length") == Some(Num(0))
    case _ => false
  }

  /** `batch`: `urls` must be truthy and not of length zero. */
  function BatchProblem(o: Object): (r: Option<string>)
    ensures "urls" !in o ==> r == Some(UrlsRequired)
    ensures forall items :: Field(o, "urls") == Some(Arr(items)) ==> (r.None? <==> |items| > 0)
    ensures r.Some? ==> r.value == UrlsRequired
  {
    var urls := Field(o, "urls");
    if !Truthy(urls) || LengthIsZero(urls.value) then Some(UrlsRequired) else None
  }
}

=== FILE: wrappers.dfy ===
/** Optional values and success/failure results, standing in for JavaScript's
    `undefined` and for thrown exceptions respectively. */
module Wrappers {

  /** A value that may be absent (`undefined` in the client). */
  datatype Option<+T> = None | Some(value: T) {

    /** The wrapped value, or `default` when absent. */
    function GetOr(default: T): T {
      match this
      case Some(v) => v
      case None => default
    }
  }

  /** Either a result or the error the client would have thrown. */
  datatype Result<+R, +E> = Success(value: R) | Failure(error: E)
}
